=== FILE: README.md ===
# Progressive-Mod infraction records, in Dafny

A model of the state machine at the heart of the Progressive-Mod moderation
bot. The bot keeps one infraction record per (guild, user): points, a status
string, moderator notes and a JSON log. Each guild also has a filter table
that maps a word to points. The model covers every command and listener that
changes these records. Each one is a pure function from the old state to the
new state, plus the platform effects it causes:

- the point-decay loop (`Tick`): ten points off every record, never below
  zero; the status recomputed from the three-tier table; the warning DM and
  the automatic ban at 1000 points. Any exception ends the whole run before
  the commit;
- the word filter (`Filter`, `OnMessage`): the `/filter` add/remove/update/view
  rules, case-sensitive substring detection, and per-word accrual;
- `/infraction`, `/notes`, `/ban` and `/unban`.

The store is a `map<Key, Record>` with `Key = (guild, user)`. Discord and
MySQL become inputs: a `Platform` answer per record for the decay loop, and
`permitted`, `banSucceeds`, `unbanSucceeds`, `fetchFails` and `lookupFails`
flags for the commands. Row order and dictionary key order become `order`
sequences. The outputs are the new store, the new ban list, a reply, and an
ordered `Effect` list (`DirectMessage`, `BanIssued`, `UnbanIssued`,
`LogCommitted`).

The stored log comes in two shapes, as it does in the code (`Records.Json`):

- every command writes a JSON list;
- the decay loop decodes a NULL column as an empty dictionary and writes that
  dictionary back.

Two consequences follow, and the model proves both:

- A record as the commands store it, at 310 points or more, makes every decay
  run abort. The warning path calls `.get` on the list, which raises, so no
  record is committed (`ListLogAbortsTick`).
- A record whose log has become a dictionary can no longer gain a log entry:
  `/infraction`, a filter hit, `/ban` and the `/unban` entry all call
  `append`, which raises, and the handler gives up (`Records.Append`). Among the
  commands, only `/notes edit` still writes such a record, and it writes the
  notes column alone; the decay loop keeps decaying it and writes its points,
  status and dictionary back.

The model follows the code where it behaves differently than a reader might
expect:

- the statuses above "active" are exactly "flagged" (300), "risking ban" (500)
  and "banned" (1000);
- `/infraction` and filter hits add points with no floor at zero, so a total
  can go negative, and neither recomputes the status;
- the decay loop changes points, status and the DM marker but appends no log
  entry;
- the warning always uses the 300-point tier, and its marker is only ever
  "flagged";
- one failing record aborts the whole run instead of being skipped;
- a negative total is reset to 0 by the next decay run.

Modules, one per source file plus four shared ones. The shared ones are
`Wrappers` (Option), `Records` (the data model and the writers' shared log
append), `Permission` (`has_permission`) and `Tiers` (the tier table). The
per-file ones are `PointManager`, `ChatManager`, `Infraction`, `Notes`, `Ban`
and `Unban`.

## Model

| member | source | states |
|---|---|---|
| `Records.Append` | functions/Infraction.py:100-101 | A NULL log counts as `[]`. The append fails exactly when the log is a dictionary. Otherwise the old entries keep their order and exactly one entry is added at the end. |
| `Records.NewRecord` | functions/Infraction.py:109-114 | A lazily created record has points = the argument, status "active", empty notes and a one-entry log. |
| `Permission.HasPermission` | functions/chatmanager.py:34-57 | Permission holds iff the caller is an administrator, or the lookup succeeds and the configured mod role exists in the guild and the caller holds it. A lookup error leaves only administrators. |
| `Tiers.StatusAfterIsHighest` | functions/pointmanager.py:119-122 | On any ascending table, the "overwrite while reached" loop yields the status of the highest threshold at or below the points, and the default below the lowest one. |
| `Tiers.FirstReachedIsLowest` | functions/pointmanager.py:38-39 | On an ascending table, the ascending scan that breaks at the first match picks the lowest tier whenever it is reached, and nothing otherwise. |
| `Tiers.StatusOf` | functions/pointmanager.py:84-88 | Below 300 the status is "active"; 300-499 "flagged"; 500-999 "risking ban"; 1000 and up "banned". A total exactly at a threshold enters that tier. |
| `Tiers.WarningTier` | functions/pointmanager.py:30-39 | The warning tier is the 300/"flagged" entry for every total of 300 or more (including 500 and 1000), and none below 300. |
| `PointManager.DecayedPoints` | functions/pointmanager.py:103 | The new total is max(0, p − 10): never negative, at least p − 10, and equal to 0 or to p − 10. |
| `PointManager.SendWarning` | functions/pointmanager.py:26-77 | A failed `fetch_user` aborts. Below 300 nothing happens. A list log aborts. A DM is attempted only when the marker is not "flagged", and the marker moves only on delivery (Forbidden leaves it). A ban is issued iff points ≥ 1000, the member is found and the ban succeeds; a failing ban call aborts. The effects are at most one DM and one ban, the DM first. |
| `PointManager.DecayStep` | functions/pointmanager.py:102-134 | A record at 0 is untouched. Otherwise it gets the decayed points and the recomputed status, with notes kept. Points and log are written, and status only when it changed. A list log comes back unchanged; a NULL log becomes a dictionary. |
| `PointManager.ListLogAbortsStep` | functions/pointmanager.py:41-45 | A list log at 310 points or more aborts the step with no effect, whatever the platform answers. |
| `PointManager.WarnsAtMostOnce` | functions/pointmanager.py:53-57 | If a step delivers the DM, the next step on the resulting record sends none. |
| `PointManager.BanDecision` | functions/pointmanager.py:62-72 | For a non-list log with the user fetched and no DM error, a ban is issued iff decayed points ≥ 1000, the member is present and the ban succeeds. The marker plays no part. A failing ban aborts. |
| `PointManager.Sweep` | functions/pointmanager.py:101-134 | The scan only updates rows it was given. |
| `PointManager.SweepEffectsComeFromSteps` | functions/pointmanager.py:101-134 | Every effect of a scan names a row of the store and is an effect of that row's own decay step. |
| `PointManager.SweepCollects` | functions/pointmanager.py:90-137 | A scan completes iff no row aborts. A completed scan holds the step's record for exactly the rows that changed. |
| `PointManager.SweepStopsAtAbort` | functions/pointmanager.py:139-140 | Rows after an aborting row do not influence the scan: it equals the scan of the prefix ending at that row. |
| `PointManager.Tick` | functions/pointmanager.py:79-140 | An aborted run leaves the store unchanged and keeps all keys. The ban list only grows, by the keys of the bans issued. |
| `PointManager.TickDecaysEveryRecord` | functions/pointmanager.py:101-134 | After a completed run every record has max(0, p − 10) points, notes kept, and the recomputed status if it changed. Records at 0 are left exactly as they were. |
| `PointManager.TickAbortsAtFirstFailure` | functions/pointmanager.py:136-140 | If any row aborts, the commit is skipped (store unchanged), and the effects are exactly those of the rows up to that one. |
| `PointManager.ListLogAbortsTick` | functions/pointmanager.py:112-116 | One list-log record at 310 points or more makes every run abort without committing anything. |
| `PointManager.TickWarnsOnce` | functions/pointmanager.py:41-57 | Across two runs, the first one completing, no user gets a warning DM in both. |
| `ChatManager.FetchChatWords` | functions/chatmanager.py:21-32 | A missing settings row, a NULL column or a failing query reads as the empty table. Otherwise the stored table is returned. |
| `ChatManager.StoreChatWords` | functions/chatmanager.py:98-107 | Only the guild's `chat_words` changes. A guild without a settings row keeps nothing. |
| `ChatManager.StoreThenFetch` | functions/chatmanager.py:21-32 | In a guild with a settings row, a successful read after `update_chat_words` returns exactly the table just stored. |
| `ChatManager.ParseFilterAction` | functions/chatmanager.py:135-140 | An action is recognised iff it is exactly one of add, remove, update, view. |
| `ChatManager.EditWords` | functions/chatmanager.py:142-214 | add/remove/update without a word are refused. add needs an absent word and points, and inserts exactly that key. remove needs a present word and deletes only it. update needs a present word and points, and changes only that value. view never writes. |
| `ChatManager.Filter` | functions/chatmanager.py:109-214 | A caller without permission is refused; an unknown action is refused. Every refusal leaves the settings unchanged. A successful edit stores the edited table. |
| `ChatManager.AddThenRemove` | functions/chatmanager.py:164-191 | Removing a word just added gives back the original table. |
| `ChatManager.RemoveThenAdd` | functions/chatmanager.py:177-190 | Removing a word and adding it back with its old points gives back the original table. |
| `ChatManager.FetchFailureOverwritesTable` | functions/chatmanager.py:149-178 | When the table read fails, a valid add stores a table holding only the new word. |
| `ChatManager.AddWithoutSettingsRowIsLost` | functions/chatmanager.py:100-104 | In a guild with no settings row, add replies Added but stores nothing. |
| `ChatManager.OccursAtSomePosition` | functions/chatmanager.py:227 | The substring test holds iff the word starts at some position of the message. |
| `ChatManager.Detect` | functions/chatmanager.py:226-228 | The detected words are exactly the table words that occur in the message, each at most once, in table order. |
| `ChatManager.UpdateUserPoints` | functions/chatmanager.py:59-96 | A hit adds the points with no floor and appends exactly one `FilterHit` entry, with status and notes kept. An absent user gets a new "active" record. A dictionary log blocks the write. No other record changes. |
| `ChatManager.AccrueHitsEffect` | functions/chatmanager.py:232-233 | After the loop the author's record has gained the sum of the hit values, with one entry per hit after the old ones. A new author starts "active" with empty notes. A dictionary log blocks everything. Other records are unchanged. |
| `ChatManager.OnMessage` | functions/chatmanager.py:216-237 | Bot authors change nothing. A total is announced iff some table word occurs in the message. Without an announcement the store is unchanged. |
| `ChatManager.AnnouncedTotalIsCharged` | functions/chatmanager.py:230-236 | The announced total is the sum over the detected set and equals the points the author gained, unless the author's log is a dictionary. |
| `Infraction.AddInfraction` | functions/Infraction.py:53-123 | Refused without permission. An existing record gets current + points (no floor) and one entry after the old ones, with status and notes untouched. A dictionary log fails with no change. An absent record is inserted as "active" with empty notes and a one-entry log. |
| `Infraction.InfractionsAccumulate` | functions/Infraction.py:76-104 | Two infractions of +a and +b give p + a + b and exactly their two entries, in order. |
| `Notes.ActionIgnoresCase` | functions/notes.py:72-96 | "view" and "edit" select their actions under any capitalisation, and nothing else does. |
| `Notes.EditOrViewNotes` | functions/notes.py:44-122 | Edit with None or empty notes is refused. Edit changes only the notes of an existing record and creates none, though it still replies Saved. View shows the notes, "No notes available" when they are empty, or "No records found for this user.". Any other action is refused. |
| `Notes.EditThenView` | functions/notes.py:81-109 | A view right after an edit shows the notes just saved. |
| `Ban.BanUser` | functions/ban.py:36-84 | Proceeds only for a permitted caller holding ban_members, on an existing record with a list log. Then exactly one "Banned" entry is appended (the reason defaults to "No reason provided") and points, status and notes are kept. The log commit comes before the ban effect, and the ban list grows only if the ban call succeeds. |
| `Unban.UnbanUser` | functions/unban.py:36-93 | Unbans only a listed user, and the reply is fixed by the gates alone. Without permission: Denied. Without ban_members: MayNotUnban. Not on the ban list: NotBanned. A failing unban call: UnbanError. Otherwise: UnbanDone, even when the record is missing or its log is a dictionary, because the interaction was already answered. Afterwards an existing record gets exactly one "Unbanned" entry, with points and status kept, unless its log is a dictionary, in which case the record is unchanged. No record is created. The unban effect precedes the log commit. |
| `Unban.BanThenUnban` | functions/unban.py:70-84 | A ban then an unban restore the ban list. The record keeps points, status and notes and gains the two entries in order. |

## Left out

- Unban.UnbanUser: `banned` is taken to be the ban list that
  `await guild.bans()` returns. The discord library is not part of this
  model. If `guild.bans()` is an asynchronous iterator rather than a
  coroutine, as in discord.py 2.x, the `await` raises `TypeError`. The
  handler then catches it and replies with an error before any unban, so
  the lifting paths of `UnbanUser` and of `BanThenUnban` would never be
  reached.
- Unban.UnbanUser: after a lifted ban the interaction has already been
  answered "unbanned". The "No user … found in the database" message and the
  error message after a failing log append are second responses, which the
  discord library refuses by raising. They are never delivered, and the
  model keeps the reply UnbanDone. The exception that then escapes the
  command is not modelled.
- Database connection handling (`reconnect_database`, ping and retry): an
  in-memory map stands in for the tables.
- Query failures are modelled only for the settings lookup in
  `has_permission` (`lookupFails`) and for `fetch_chat_words` (`fetchFails`).
  The code also catches and reports other database errors, and these are
  left out. `update_chat_words` catches its failure, so `/filter` still
  replies "Added", "Removed" or "Updated" with nothing stored.
  `update_user_points` catches its failure too, so the listener still
  announces a total it has not stored. The handlers of `/infraction`,
  `/notes`, `/ban` and `/unban` catch a failing query and reply with an
  error message. The model treats every query other than these two lookups
  as succeeding.
- Transactions: a failed decay run is modelled as committing nothing. In the
  code its UPDATEs stay pending on the shared connection, and a later
  `commit` by any command could persist them. Every later statement on that
  connection, including the next run's SELECT, already reads them. The
  model therefore withholds the decay of the rows scanned before the
  aborting row, and it repeats their warning DM in the next run, where one
  live session would not. That interleaving is not modelled.
- Discord calls are inputs. `fetch_user`, `user.send`, `get_member` and
  `member.ban` are the `Platform` answers; `guild.ban`, `guild.bans` and
  `guild.unban` are the ban list and the success flags.
- Scheduling: `tasks.loop` and the quarter-hour alignment in
  `before_point_decay_loop`. One run is one `Tick`.
- Timestamps are opaque `Timestamp` strings. A filter hit uses one time stamp
  for every word of a message.
- JSON encoding. Log entries are typed variants. Dictionary logs keep only
  the `message_sent` and `ban_message` keys the loop writes: no writer
  stores `log_entries`, which the warning text would list.
- Message, DM and log-rendering texts, except the two texts `/notes` shows
  for a missing record or empty notes.
- `readlog.py` and `setup.py`: a read-only view, and role creation plus the
  `mod_role_id` upsert.
- Concurrency: every command and every run is atomic.
- The moderator check in `ban.py` and `unban.py` reads a cursor that
  `__init__` never sets. It is an input (`permitted`) there.
- Messages outside a guild: the listener raises on `message.guild.id` before
  doing anything.
- Notes.ParseNotesAction: `str.lower()` is modelled on ASCII capitals only.
  No other character lower-cases to a letter of "view" or "edit", so the
  match is the same.
- A NULL `notes` column is identified with the empty string. `/notes view`
  treats both alike.

=== FILE: ban.dfy ===
/** The `/ban` command: log a "Banned" entry on an existing record, commit
    it, then ban the member on the platform. */
module Ban {
  import opened Wrappers
  import opened Records

  datatype BanReply = Denied | MayNotBan | NotInSystem | BanDone | BanError

  datatype BanResult = BanResult(users: Users, banned: set<Key>, effects: seq<Effect>, reply: BanReply)

  const DefaultReason := "No reason provided"

  /** The command in `guild` against `target`. `permitted` is the outcome of
      the handler's moderator check, `banned` the guild's ban list, and
      `banSucceeds` whether `guild.ban` returns; when it raises the entry is
      already committed. A dictionary log makes the append raise before
      anything is written or banned. */
  function BanUser(users: Users, banned: set<Key>, guild: GuildId, caller: Caller, permitted: bool,
                   target: UserId, reason: Option<string>, now: Timestamp, banSucceeds: bool): (r: BanResult)
    ensures var key := (guild, target);
            var proceeds := permitted && caller.canBan && key in users && !IsDict(users[key].log);
            && (r.reply == Denied <==> !permitted)
            && (r.reply == MayNotBan <==> permitted && !caller.canBan)
            && (r.reply == NotInSystem <==> permitted && caller.canBan && key !in users)
            && (!proceeds ==> r.users == users && r.banned == banned && r.effects == [])
            && (proceeds ==>
                  var why := reason.GetOr(DefaultReason);
                  && r.users.Keys == users.Keys
                  && (forall k | k in users && k != key :: r.users[k] == users[k])
                  && r.users[key].points == users[key].points
                  && r.users[key].status == users[key].status
                  && r.users[key].notes == users[key].notes
                  && !IsDict(r.users[key].log)
                  && Entries(r.users[key].log) == Entries(users[key].log) + [BanEntry(caller.id, caller.name, why, now)]
                  && r.effects == [LogCommitted(key)] + (if banSucceeds then [BanIssued(key, why)] else [])
                  && r.banned == banned + (if banSucceeds then {key} else {})
                  && (r.reply == BanDone <==> banSucceeds))
  {
    var key := (guild, target);
    var why := reason.GetOr(DefaultReason);
    if !permitted then BanResult(users, banned, [], Denied)
    else if !caller.canBan then BanResult(users, banned, [], MayNotBan)
    else if key !in users then BanResult(users, banned, [], NotInSystem)
    else
      var rec := users[key];
      match Append(rec.log, BanEntry(caller.id, caller.name, why, now))
      case None => BanResult(users, banned, [], BanError)
      case Some(log) =>
        var users' := users[key := rec.(log := Some(log))];
        if banSucceeds then BanResult(users', banned + {key}, [LogCommitted(key), BanIssued(key, why)], BanDone)
        else BanResult(users', banned, [LogCommitted(key)], BanError)
  }
}

=== FILE: chatmanager.dfy ===
/**
 The word filter: the per-guild table from filtered word to points, the
 `/filter` command that edits it, and the message listener that charges a
 user the points of every filtered word a message contains.
 */
module ChatManager {
  import opened Wrappers
  import opened Records
  import opened Permission

  /** `fetch_chat_words`: the stored table, or an empty one when the guild has
      no settings row, the column is NULL, or the query raises. */
  function FetchChatWords(settings: Settings, guild: GuildId, fetchFails: bool): (table: map<string, int>)
    ensures table != map[] ==> !fetchFails && guild in settings && settings[guild].chatWords == Some(table)
    ensures !fetchFails && guild in settings && settings[guild].chatWords.Some? ==> table == settings[guild].chatWords.value
  {
    if !fetchFails && guild in settings && settings[guild].chatWords.Some? then settings[guild].chatWords.value
    else map[]
  }

  /** `update_chat_words`: an UPDATE of the settings row, which writes nothing
      when the guild has no row. */
  function StoreChatWords(settings: Settings, guild: GuildId, table: map<string, int>): (r: Settings)
    ensures r.Keys == settings.Keys
    ensures forall g | g in settings && g != guild :: r[g] == settings[g]
    ensures guild in settings ==> r[guild].chatWords == Some(table) && r[guild].modRole == settings[guild].modRole
    ensures guild !in settings ==> r == settings
  {
    if guild in settings then settings[guild := settings[guild].(chatWords := Some(table))] else settings
  }

  /** Reading the table back after storing it gives the stored table, when the
      guild has a settings row and the read succeeds. */
  lemma StoreThenFetch(settings: Settings, guild: GuildId, table: map<string, int>)
    requires guild in settings
    ensures FetchChatWords(StoreChatWords(settings, guild, table), guild, false) == table
  {
  }

  datatype FilterAction = AddWord | RemoveWord | UpdateWord | ViewWords

  /** The four action names the command accepts, matched exactly. */
  function ParseFilterAction(action: string): (r: Option<FilterAction>)
    ensures r.Some? <==> action in ["add", "remove", "update", "view"]
  {
    if action == "add" then Some(AddWord)
    else if action == "remove" then Some(RemoveWord)
    else if action == "update" then Some(UpdateWord)
    else if action == "view" then Some(ViewWords)
    else None
  }

  datatype FilterReply =
    | Denied | InvalidAction | MissingWord
    | NoWords | WordList(table: map<string, int>)
    | AlreadyListed | MissingPoints | NotListed
    | Added | Removed | Updated

  /** The new table to store, if any, and the reply. */
  datatype Edit = Edit(table: Option<map<string, int>>, reply: FilterReply)

  /** A command argument `word` that Python treats as missing: None or "". */
  predicate NoWord(word: Option<string>) {
    word.None? || word.value == ""
  }

  /** The checks and the table change of one valid `/filter` action. */
  function EditWords(table: map<string, int>, action: FilterAction, word: Option<string>, points: Option<int>): (r: Edit)
    ensures action != ViewWords && NoWord(word) ==> r == Edit(None, MissingWord)
    ensures action == ViewWords ==> r.table.None? && (r.reply == NoWords <==> table == map[])
    ensures action == AddWord && r.table.Some? ==>
              && word.Some? && word.value !in table
              && r.table.value.Keys == table.Keys + {word.value}
              && points.Some? && r.table.value[word.value] == points.value
              && forall w | w in table :: r.table.value[w] == table[w]
    ensures action == AddWord && !NoWord(word) ==> (r.table.Some? <==> word.value !in table && points.Some?)
    ensures action == RemoveWord && r.table.Some? ==>
              && word.Some? && word.value in table
              && r.table.value.Keys == table.Keys - {word.value}
              && forall w | w in r.table.value :: r.table.value[w] == table[w]
    ensures action == RemoveWord && !NoWord(word) ==> (r.table.Some? <==> word.value in table)
    ensures action == UpdateWord && r.table.Some? ==>
              && word.Some? && word.value in table
              && r.table.value.Keys == table.Keys
              && points.Some? && r.table.value[word.value] == points.value
              && forall w | w in table && w != word.value :: r.table.value[w] == table[w]
    ensures action == UpdateWord && !NoWord(word) ==> (r.table.Some? <==> word.value in table && points.Some?)
    ensures r.table.Some? <==> r.reply in {Added, Removed, Updated}
  {
    if action != ViewWords && NoWord(word) then Edit(None, MissingWord)
    else
      match action
      case ViewWords => Edit(None, if table == map[] then NoWords else WordList(table))
      case AddWord =>
        if word.value in table then Edit(None, AlreadyListed)
        else if points.None? then Edit(None, MissingPoints)
        else Edit(Some(table[word.value := points.value]), Added)
      case RemoveWord =>
        if word.value !in table then Edit(None, NotListed)
        else Edit(Some(table - {word.value}), Removed)
      case UpdateWord =>
        if word.value !in table then Edit(None, NotListed)
        else if points.None? then Edit(None, MissingPoints)
        else Edit(Some(table[word.value := points.value]), Updated)
  }

  datatype FilterResult = FilterResult(settings: Settings, reply: FilterReply)

  /** The `/filter` command in the invoking guild. */
  function Filter(settings: Settings, inv: Invocation, fetchFails: bool,
                  action: string, word: Option<string>, points: Option<int>): (r: FilterResult)
    ensures r.reply == Denied <==> !HasPermission(inv, settings)
    ensures HasPermission(inv, settings) && ParseFilterAction(action).None? ==> r.reply == InvalidAction
    ensures r.reply !in {Added, Removed, Updated} ==> r.settings == settings
    ensures r.reply in {Added, Removed, Updated} ==>
              var e := EditWords(FetchChatWords(settings, inv.guild, fetchFails), ParseFilterAction(action).value, word, points);
              e.table.Some? && r.settings == StoreChatWords(settings, inv.guild, e.table.value)
  {
    if !HasPermission(inv, settings) then FilterResult(settings, Denied)
    else
      match ParseFilterAction(action)
      case None => FilterResult(settings, InvalidAction)
      case Some(a) =>
        var e := EditWords(FetchChatWords(settings, inv.guild, fetchFails), a, word, points);
        match e.table
        case None => FilterResult(settings, e.reply)
        case Some(t) => FilterResult(StoreChatWords(settings, inv.guild, t), e.reply)
  }

  /** Removing a word just added gives back the table it was added to. */
  lemma AddThenRemove(table: map<string, int>, word: string, points: int)
    requires word != "" && word !in table
    ensures var added := EditWords(table, AddWord, Some(word), Some(points));
            added.table.Some? && EditWords(added.table.value, RemoveWord, Some(word), None) == Edit(Some(table), Removed)
  {
    var added := table[word := points];
    assert added - {word} == table;
  }

  /** Removing a listed word and adding it back with its old points gives
      back the original table. */
  lemma RemoveThenAdd(table: map<string, int>, word: string)
    requires word != "" && word in table
    ensures var removed := EditWords(table, RemoveWord, Some(word), None);
            removed.table.Some?
            && EditWords(removed.table.value, AddWord, Some(word), Some(table[word])) == Edit(Some(table), Added)
  {
    var removed := table - {word};
    assert removed[word := table[word]] == table;
  }

  /** When reading the table raises, a valid add stores a table holding the
      new word alone: every other word of the guild is lost. */
  lemma FetchFailureOverwritesTable(settings: Settings, inv: Invocation, word: string, points: int)
    requires HasPermission(inv, settings) && inv.guild in settings && word != ""
    ensures var r := Filter(settings, inv, true, "add", Some(word), Some(points));
            r.reply == Added && r.settings[inv.guild].chatWords == Some(map[word := points])
  {
  }

  /** A guild without a settings row gets the reply Added but keeps no word. */
  lemma AddWithoutSettingsRowIsLost(settings: Settings, inv: Invocation, fetchFails: bool, word: string, points: int)
    requires HasPermission(inv, settings) && inv.guild !in settings && word != ""
    ensures Filter(settings, inv, fetchFails, "add", Some(word), Some(points)) == FilterResult(settings, Added)
  {
  }

  /** Python's `w in s` on strings: `w` occurs in `s` as a contiguous,
      case-sensitive substring; the empty word occurs in every message. */
  predicate Occurs(w: string, s: string)
    decreases |s|
  {
    (|w| <= |s| && s[..|w|] == w) || (|s| > 0 && Occurs(w, s[1..]))
  }

  /** `w` starts at position `i` of `s`. */
  predicate OccursAt(w: string, s: string, i: int) {
    0 <= i && i + |w| <= |s| && s[i..i + |w|] == w
  }

  /** `Occurs` is the existence of a position where `w` starts in `s`. */
  lemma {:induction false} OccursAtSomePosition(w: string, s: string)
    ensures Occurs(w, s) <==> exists i :: OccursAt(w, s, i)
    decreases |s|
  {
    if |w| <= |s| && s[..|w|] == w {
      assert OccursAt(w, s, 0);
    }
    if |s| > 0 {
      OccursAtSomePosition(w, s[1..]);
      if exists i :: OccursAt(w, s, i) {
        var i :| OccursAt(w, s, i);
        if i > 0 {
          assert s[1..][i - 1..i - 1 + |w|] == w;
          assert OccursAt(w, s[1..], i - 1);
        }
      }
      if exists i :: OccursAt(w, s[1..], i) {
        var i :| OccursAt(w, s[1..], i);
        assert s[i + 1..i + 1 + |w|] == w;
        assert OccursAt(w, s, i + 1);
      }
    } else {
      if exists i :: OccursAt(w, s, i) {
        var i :| OccursAt(w, s, i);
        assert |w| == 0 && s[..|w|] == w;
      }
    }
  }

  /** `s` is `t` with some elements left out, the rest kept in order. */
  ghost predicate IsSubsequence<T>(s: seq<T>, t: seq<T>)
    decreases |t|
  {
    if s == [] then true
    else if t == [] then false
    else if s[0] == t[0] then IsSubsequence(s[1..], t[1..])
    else IsSubsequence(s, t[1..])
  }

  /** The dictionary comprehension of the listener: the words of `order`
      (the table's key order) that occur in `content`, in that order. */
  function Detect(order: seq<string>, content: string): (hits: seq<string>)
    ensures forall w :: w in hits <==> w in order && Occurs(w, content)
    ensures |hits| <= |order|
    ensures (forall i, j | 0 <= i < j < |order| :: order[i] != order[j]) ==>
              forall i, j | 0 <= i < j < |hits| :: hits[i] != hits[j]
    ensures IsSubsequence(hits, order)
    decreases |order|
  {
    if order == [] then []
    else if Occurs(order[0], content) then [order[0]] + Detect(order[1..], content)
    else Detect(order[1..], content)
  }

  /** `sum(detected_words.values())`. */
  function HitTotal(table: map<string, int>, hits: seq<string>): int
    requires forall i | 0 <= i < |hits| :: hits[i] in table
    decreases |hits|
  {
    if hits == [] then 0 else table[hits[0]] + HitTotal(table, hits[1..])
  }

  /** The log entries the listener appends for `hits`, one per word. */
  function HitEntries(table: map<string, int>, hits: seq<string>, now: Timestamp): (r: seq<Entry>)
    requires forall i | 0 <= i < |hits| :: hits[i] in table
    ensures |r| == |hits|
    ensures forall i | 0 <= i < |hits| :: r[i] == FilterHit(hits[i], table[hits[i]], now)
    decreases |hits|
  {
    if hits == [] then [] else [FilterHit(hits[0], table[hits[0]], now)] + HitEntries(table, hits[1..], now)
  }

  /** `update_user_points` for one detected word: points are added without a
      floor and one entry is appended; a user without a record gets a new
      one; a dictionary log makes the append raise and nothing is written. */
  function UpdateUserPoints(users: Users, key: Key, word: string, points: int, now: Timestamp): (r: Users)
    ensures r.Keys == users.Keys + {key}
    ensures forall k | k in users && k != key :: r[k] == users[k]
    ensures key in users && IsDict(users[key].log) ==> r == users
    ensures key in users && !IsDict(users[key].log) ==>
              && r[key].points == users[key].points + points
              && r[key].status == users[key].status
              && r[key].notes == users[key].notes
              && !IsDict(r[key].log)
              && Entries(r[key].log) == Entries(users[key].log) + [FilterHit(word, points, now)]
    ensures key !in users ==> r[key] == NewRecord(points, FilterHit(word, points, now))
  {
    var entry := FilterHit(word, points, now);
    if key in users then
      var rec := users[key];
      match Append(rec.log, entry)
      case None => users
      case Some(log) => users[key := rec.(points := rec.points + points, log := Some(log))]
    else users[key := NewRecord(points, entry)]
  }

  /** The listener's loop over the detected words, in order. */
  function AccrueHits(users: Users, key: Key, table: map<string, int>, hits: seq<string>, now: Timestamp): Users
    requires forall i | 0 <= i < |hits| :: hits[i] in table
    decreases |hits|
  {
    if hits == [] then users
    else AccrueHits(UpdateUserPoints(users, key, hits[0], table[hits[0]], now), key, table, hits[1..], now)
  }

  /** The loop touches no record but the author's, and keeps the author's
      record once there is one. */
  lemma {:induction false} AccrueHitsFrame(users: Users, key: Key, table: map<string, int>, hits: seq<string>, now: Timestamp)
    requires forall i | 0 <= i < |hits| :: hits[i] in table
    ensures var r := AccrueHits(users, key, table, hits, now);
            && (forall k | k in users && k != key :: k in r && r[k] == users[k])
            && (forall k | k in r :: k in users || k == key)
            && (key in users || hits != [] ==> key in r)
    decreases |hits|
  {
    if hits != [] {
      var rest := hits[1..];
      assert forall i | 0 <= i < |rest| :: rest[i] == hits[i + 1];
      AccrueHitsFrame(UpdateUserPoints(users, key, hits[0], table[hits[0]], now), key, table, rest, now);
    }
  }

  /** A dictionary log makes every update of the loop raise. */
  lemma {:induction false} AccrueHitsBlocked(users: Users, key: Key, table: map<string, int>, hits: seq<string>, now: Timestamp)
    requires forall i | 0 <= i < |hits| :: hits[i] in table
    requires key in users && IsDict(users[key].log)
    ensures AccrueHits(users, key, table, hits, now) == users
    decreases |hits|
  {
    if hits != [] {
      var rest := hits[1..];
      assert forall i | 0 <= i < |rest| :: rest[i] == hits[i + 1];
      AccrueHitsBlocked(users, key, table, rest, now);
    }
  }

  /** `after` is `before` with `total` points more and `added` appended to
      its list log, status and notes kept. */
  ghost predicate Gained(before: Record, after: Record, total: int, added: seq<Entry>) {
    && after.points == before.points + total
    && after.status == before.status
    && after.notes == before.notes
    && !IsDict(after.log)
    && Entries(after.log) == Entries(before.log) + added
  }

  /** On an existing record with a list (or NULL) log the loop adds the sum
      of the hit values and appends one entry per hit after the old ones. */
  lemma {:induction false} AccrueHitsExisting(users: Users, key: Key, table: map<string, int>, hits: seq<string>, now: Timestamp)
    requires forall i | 0 <= i < |hits| :: hits[i] in table
    requires key in users && !IsDict(users[key].log)
    ensures var r := AccrueHits(users, key, table, hits, now);
            key in r && Gained(users[key], r[key], HitTotal(table, hits), HitEntries(table, hits, now))
    decreases |hits|
  {
    if hits == [] {
      assert Entries(users[key].log) + [] == Entries(users[key].log);
    } else {
      var w := hits[0];
      var rest := hits[1..];
      assert forall i | 0 <= i < |rest| :: rest[i] == hits[i + 1];
      var e := FilterHit(w, table[w], now);
      var u1 := UpdateUserPoints(users, key, w, table[w], now);
      assert Gained(users[key], u1[key], table[w], [e]);
      AccrueHitsExisting(u1, key, table, rest, now);
      var r := AccrueHits(u1, key, table, rest, now);
      assert r == AccrueHits(users, key, table, hits, now);
      assert Gained(u1[key], r[key], HitTotal(table, rest), HitEntries(table, rest, now));
      GainedChains(users[key], u1[key], r[key], table[w], [e], HitTotal(table, rest), HitEntries(table, rest, now));
      assert HitTotal(table, hits) == table[w] + HitTotal(table, rest);
      assert HitEntries(table, hits, now) == [e] + HitEntries(table, rest, now);
    }
  }

  lemma GainedChains(a: Record, b: Record, c: Record, t1: int, e1: seq<Entry>, t2: int, e2: seq<Entry>)
    requires Gained(a, b, t1, e1) && Gained(b, c, t2, e2)
    ensures Gained(a, c, t1 + t2, e1 + e2)
  {
  }

  /** The author's record after the loop: the sum of the hit values added to
      the old total (zero for a new user), one entry per hit after the old
      ones, status and notes kept (a new user starts "active" with no
      notes); a dictionary log blocks every hit; other records are kept. */
  lemma AccrueHitsEffect(users: Users, key: Key, table: map<string, int>, hits: seq<string>, now: Timestamp)
    requires forall i | 0 <= i < |hits| :: hits[i] in table
    ensures var r := AccrueHits(users, key, table, hits, now);
            && (forall k | k in users && k != key :: k in r && r[k] == users[k])
            && (forall k | k in r :: k in users || k == key)
            && (key in users && IsDict(users[key].log) ==> r == users)
            && (key in users && !IsDict(users[key].log) ==>
                  && key in r
                  && r[key].points == users[key].points + HitTotal(table, hits)
                  && r[key].status == users[key].status
                  && r[key].notes == users[key].notes
                  && Entries(r[key].log) == Entries(users[key].log) + HitEntries(table, hits, now))
            && (key !in users && hits != [] ==>
                  && key in r
                  && r[key].points == HitTotal(table, hits)
                  && r[key].status == ActiveStatus
                  && r[key].notes == ""
                  && Entries(r[key].log) == HitEntries(table, hits, now))
  {
    AccrueHitsFrame(users, key, table, hits, now);
    if key in users {
      if IsDict(users[key].log) {
        AccrueHitsBlocked(users, key, table, hits, now);
      } else {
        AccrueHitsExisting(users, key, table, hits, now);
      }
    } else if hits != [] {
      var w := hits[0];
      var rest := hits[1..];
      assert forall i | 0 <= i < |rest| :: rest[i] == hits[i + 1];
      var u1 := UpdateUserPoints(users, key, w, table[w], now);
      AccrueHitsExisting(u1, key, table, rest, now);
      assert HitEntries(table, hits, now) == [FilterHit(w, table[w], now)] + HitEntries(table, rest, now);
    }
  }

  datatype MessageResult = MessageResult(users: Users, announced: Option<int>)

  /** The `on_message` listener for a guild message by `author` whose key
      order of the guild's table is `order`; `announced` is the total the bot
      posts, if it posts. */
  function OnMessage(users: Users, settings: Settings, fetchFails: bool, author: Key, authorIsBot: bool,
                     content: string, order: seq<string>, now: Timestamp): (r: MessageResult)
    requires Enumerates(order, FetchChatWords(settings, author.0, fetchFails).Keys)
    ensures authorIsBot ==> r == MessageResult(users, None)
    ensures r.announced.Some? <==>
              !authorIsBot && exists w :: w in FetchChatWords(settings, author.0, fetchFails) && Occurs(w, content)
    ensures r.announced.None? ==> r.users == users
  {
    var table := FetchChatWords(settings, author.0, fetchFails);
    if authorIsBot then MessageResult(users, None)
    else
      var hits := Detect(order, content);
      assert forall i | 0 <= i < |hits| :: hits[i] in table by {
        forall i | 0 <= i < |hits| ensures hits[i] in table {
          assert hits[i] in hits;
        }
      }
      if hits == [] then MessageResult(users, None)
      else MessageResult(AccrueHits(users, author, table, hits, now), Some(HitTotal(table, hits)))
  }

  /** The announced total is what the author's record gained, and every
      detected word left exactly one entry, unless the record's log is a
      dictionary, in which case nothing was recorded at all. */
  lemma AnnouncedTotalIsCharged(users: Users, settings: Settings, fetchFails: bool, author: Key,
                                content: string, order: seq<string>, now: Timestamp)
    requires Enumerates(order, FetchChatWords(settings, author.0, fetchFails).Keys)
    ensures var r := OnMessage(users, settings, fetchFails, author, false, content, order, now);
            var table := FetchChatWords(settings, author.0, fetchFails);
            var hits := Detect(order, content);
            r.announced.Some? ==>
              && r.announced.value == HitTotal(table, hits)
              && (forall w :: w in hits <==> w in table && Occurs(w, content))
              && (forall i, j | 0 <= i < j < |hits| :: hits[i] != hits[j])
              && (author in users && IsDict(users[author].log) ==> r.users == users)
              && (author in users && !IsDict(users[author].log) ==>
                    && author in r.users
                    && r.users[author].points == users[author].points + r.announced.value
                    && Entries(r.users[author].log) == Entries(users[author].log) + HitEntries(table, hits, now))
              && (author !in users ==>
                    && author in r.users
                    && r.users[author].points == r.announced.value
                    && Entries(r.users[author].log) == HitEntries(table, hits, now))
  {
    var table := FetchChatWords(settings, author.0, fetchFails);
    var hits := Detect(order, content);
    assert forall i | 0 <= i < |hits| :: hits[i] in table by {
      forall i | 0 <= i < |hits| ensures hits[i] in table {
        assert hits[i] in hits;
      }
    }
    AccrueHitsEffect(users, author, table, hits, now);
  }
}

=== FILE: infraction.dfy ===
/** The `/infraction` command: a moderator adds (or, with a negative
    argument, removes) points on a user's record and logs why. */
module Infraction {
  import opened Wrappers
  import opened Records
  import opened Permission

  datatype InfractionReply = Denied | Updated(total: int) | Inserted(points: int) | Failed

  datatype InfractionResult = InfractionResult(users: Users, reply: InfractionReply)

  /** The entry the command logs: the caller, the argument, the note. */
  function ManualEntry(inv: Invocation, points: int, note: string, now: Timestamp): Entry {
    Manual(inv.caller.id, inv.caller.name, points, note, now)
  }

  /** The command on the record of `target` in the invoking guild. The new
      total has no lower bound, and the status is not recomputed. */
  function AddInfraction(users: Users, settings: Settings, inv: Invocation, target: UserId,
                         points: int, note: string, now: Timestamp): (r: InfractionResult)
    ensures r.reply == Denied <==> !HasPermission(inv, settings)
    ensures r.reply.Denied? || r.reply.Failed? ==> r.users == users
    ensures var key := (inv.guild, target);
            && r.users.Keys == users.Keys + (if r.reply.Inserted? then {key} else {})
            && (forall k | k in users && k != key :: r.users[k] == users[k])
            && (HasPermission(inv, settings) && key in users && IsDict(users[key].log) ==> r.reply == Failed)
            && (HasPermission(inv, settings) && key in users && !IsDict(users[key].log) ==>
                  && r.reply == Updated(users[key].points + points)
                  && r.users[key].points == users[key].points + points
                  && r.users[key].status == users[key].status
                  && r.users[key].notes == users[key].notes
                  && !IsDict(r.users[key].log)
                  && Entries(r.users[key].log) == Entries(users[key].log) + [ManualEntry(inv, points, note, now)])
            && (HasPermission(inv, settings) && key !in users ==>
                  && r.reply == Inserted(points)
                  && r.users[key] == NewRecord(points, ManualEntry(inv, points, note, now)))
  {
    var key := (inv.guild, target);
    var entry := ManualEntry(inv, points, note, now);
    if !HasPermission(inv, settings) then InfractionResult(users, Denied)
    else if key in users then
      var rec := users[key];
      match Append(rec.log, entry)
      case None => InfractionResult(users, Failed)
      case Some(log) =>
        InfractionResult(users[key := rec.(points := rec.points + points, log := Some(log))], Updated(rec.points + points))
    else InfractionResult(users[key := NewRecord(points, entry)], Inserted(points))
  }

  /** Two permitted infractions in a row on the same user add up and leave
      exactly their two entries, in order, after the old ones. */
  lemma InfractionsAccumulate(users: Users, settings: Settings, inv1: Invocation, inv2: Invocation, target: UserId,
                              a: int, noteA: string, b: int, noteB: string, now: Timestamp)
    requires inv1.guild == inv2.guild
    requires HasPermission(inv1, settings) && HasPermission(inv2, settings)
    requires var key := (inv1.guild, target); key in users ==> !IsDict(users[key].log)
    ensures var key := (inv1.guild, target);
            var r1 := AddInfraction(users, settings, inv1, target, a, noteA, now);
            var r2 := AddInfraction(r1.users, settings, inv2, target, b, noteB, now);
            && key in r2.users
            && r2.users[key].points == (if key in users then users[key].points else 0) + a + b
            && Entries(r2.users[key].log)
               == Entries(if key in users then users[key].log else None)
                  + [ManualEntry(inv1, a, noteA, now), ManualEntry(inv2, b, noteB, now)]
  {
  }
}

=== FILE: notes.dfy ===
/** The `/notes` command: view or replace the moderator notes of a record. */
module Notes {
  import opened Wrappers
  import opened Records
  import opened Permission

  /** `str.lower()` on the characters that can spell an action name: the
      ASCII capitals; every other character is kept. */
  function LowerChar(c: char): char {
    if 'A' <= c <= 'Z' then (c as int + 32) as char else c
  }

  function UpperChar(c: char): char {
    if 'a' <= c <= 'z' then (c as int - 32) as char else c
  }

  function Lower(s: string): (r: string)
    ensures |r| == |s| && forall i | 0 <= i < |s| :: r[i] == LowerChar(s[i])
  {
    seq(|s|, i requires 0 <= i < |s| => LowerChar(s[i]))
  }

  /** `a` spells the lower-case word `w` with any letters capitalised. */
  ghost predicate SpellsIgnoringCase(a: string, w: string) {
    |a| == |w| && forall i | 0 <= i < |a| :: a[i] == w[i] || a[i] == UpperChar(w[i])
  }

  datatype NotesAction = ViewNotes | EditNotes | OtherNotesAction

  function ParseNotesAction(action: string): NotesAction {
    if Lower(action) == "view" then ViewNotes
    else if Lower(action) == "edit" then EditNotes
    else OtherNotesAction
  }

  /** The action is matched case-insensitively: "view" and "edit" in any mix
      of capitals select their action, and nothing else does. */
  lemma ActionIgnoresCase(action: string)
    ensures ParseNotesAction(action) == ViewNotes <==> SpellsIgnoringCase(action, "view")
    ensures ParseNotesAction(action) == EditNotes <==> SpellsIgnoringCase(action, "edit")
  {
    LowerSpells(action, "view");
    LowerSpells(action, "edit");
  }

  lemma LowerSpells(a: string, w: string)
    requires forall i | 0 <= i < |w| :: 'a' <= w[i] <= 'z'
    ensures Lower(a) == w <==> SpellsIgnoringCase(a, w)
  {
  }

  const NoNotesText := "No notes available"
  const NoRecordText := "No records found for this user."

  datatype NotesReply = Denied | Shown(text: string) | MissingNotes | Saved | InvalidAction

  datatype NotesResult = NotesResult(users: Users, reply: NotesReply)

  /** The command on the record of `target` in the invoking guild. The edit
      is an UPDATE, so a user without a record gets none (yet the reply is
      Saved); notes that are None or empty are refused. */
  function EditOrViewNotes(users: Users, settings: Settings, inv: Invocation, action: string,
                           target: UserId, newNotes: Option<string>): (r: NotesResult)
    ensures r.reply == Denied <==> !HasPermission(inv, settings)
    ensures r.users.Keys == users.Keys
    ensures var key := (inv.guild, target);
            && (forall k | k in users && k != key :: r.users[k] == users[k])
            && (r.users != users ==>
                  && HasPermission(inv, settings) && ParseNotesAction(action) == EditNotes
                  && newNotes.Some? && newNotes.value != "" && key in users)
            && (HasPermission(inv, settings) && ParseNotesAction(action) == EditNotes && newNotes.Some? && newNotes.value != ""
                ==> r.reply == Saved
                    && (key in users ==> r.users[key] == users[key].(notes := newNotes.value)))
            && (HasPermission(inv, settings) && ParseNotesAction(action) == EditNotes && (newNotes.None? || newNotes.value == "")
                ==> r.reply == MissingNotes)
            && (HasPermission(inv, settings) && ParseNotesAction(action) == ViewNotes ==>
                  r.reply == Shown(if key !in users then NoRecordText
                                   else if users[key].notes == "" then NoNotesText
                                   else users[key].notes))
            && (HasPermission(inv, settings) && ParseNotesAction(action) == OtherNotesAction ==> r.reply == InvalidAction)
  {
    var key := (inv.guild, target);
    if !HasPermission(inv, settings) then NotesResult(users, Denied)
    else
      match ParseNotesAction(action)
      case ViewNotes =>
        var text := if key !in users then NoRecordText
                    else if users[key].notes == "" then NoNotesText
                    else users[key].notes;
        NotesResult(users, Shown(text))
      case EditNotes =>
        if newNotes.None? || newNotes.value == "" then NotesResult(users, MissingNotes)
        else if key in users then NotesResult(users[key := users[key].(notes := newNotes.value)], Saved)
        else NotesResult(users, Saved)
      case OtherNotesAction => NotesResult(users, InvalidAction)
  }

  /** Viewing right after an edit shows the notes just saved. */
  lemma EditThenView(users: Users, settings: Settings, inv: Invocation, edit: string, view: string,
                     target: UserId, notes: string)
    requires HasPermission(inv, settings) && (inv.guild, target) in users && notes != ""
    requires ParseNotesAction(edit) == EditNotes && ParseNotesAction(view) == ViewNotes
    ensures var edited := EditOrViewNotes(users, settings, inv, edit, target, Some(notes));
            EditOrViewNotes(edited.users, settings, inv, view, target, None).reply == Shown(notes)
  {
  }
}

=== FILE: permission.dfy ===
/** The moderator check each command handler repeats before it acts. */
module Permission {
  import opened Wrappers
  import opened Records

  /** A slash-command invocation: the guild, the caller, the roles the guild
      defines, and whether the settings lookup raised. */
  datatype Invocation = Invocation(guild: GuildId, caller: Caller, guildRoles: set<RoleId>, lookupFails: bool)

  /** The configured moderator role of a guild, if a settings row holds one. */
  function ModRole(settings: Settings, guild: GuildId): Option<RoleId> {
    if guild in settings then settings[guild].modRole else None
  }

  /** `has_permission`: administrators always pass; anyone else passes only
      when the lookup succeeds, the configured role exists in the guild and
      the caller holds it. */
  function HasPermission(inv: Invocation, settings: Settings): (r: bool)
    ensures inv.caller.isAdmin ==> r
    ensures inv.lookupFails ==> (r <==> inv.caller.isAdmin)
    ensures r <==> (inv.caller.isAdmin
                    || (!inv.lookupFails
                        && exists role :: role in inv.caller.roles && role in inv.guildRoles && ModRole(settings, inv.guild) == Some(role)))
  {
    if inv.caller.isAdmin then true
    else if inv.lookupFails then false
    else
      match ModRole(settings, inv.guild)
      case Some(role) => role in inv.guildRoles && role in inv.caller.roles
      case None => false
  }
}

=== FILE: pointmanager.dfy ===
/**
 One run of the point-decay loop: every record loses ten points (never going
 below zero), its status is recomputed from the tier table, and a record at
 300 points or more goes through the warning/ban path. Any exception on any
 record ends the whole run before the commit.
 */
module PointManager {
  import opened Wrappers
  import opened Records
  import opened Tiers

  /** How `user.send` ends: delivered, refused with Forbidden (caught), or
      with any other error (not caught). */
  datatype DmOutcome = Delivered | Forbidden | SendFailed

  /** The platform's answers for one record of the scan. `userFetched` is
      false when `fetch_user` raises; `memberPresent` is false when the guild
      or the member is not in the cache; `banSucceeds` is false when
      `member.ban` raises. */
  datatype Platform = Platform(userFetched: bool, dm: DmOutcome, memberPresent: bool, banSucceeds: bool)

  const DecayAmount := 10
  const BanThreshold := 1000
  const BanReason := "Exceeded maximum infractions (1000 points)."
  const BanNote := "User banned due to exceeding infraction points."

  /** `max(0, points - 10)`. */
  function DecayedPoints(points: int): (r: int)
    ensures r >= 0 && r >= points - DecayAmount
    ensures r == 0 || r == points - DecayAmount
  {
    if points - DecayAmount > 0 then points - DecayAmount else 0
  }

  /** A DM to `key` appears among `effects`. */
  ghost predicate DmSent(effects: seq<Effect>, key: Key) {
    exists e :: e in effects && e.DirectMessage? && e.key == key
  }

  /** The warning path sends a DM for this log: a tier is reached and the
      dictionary does not already record that tier's status as sent. */
  predicate WantsWarning(points: int, log: Json) {
    points >= Table[0].threshold && log.JObject? && log.messageSent != Some(Table[0].status)
  }

  datatype Warning = Warned(log: Json, effects: seq<Effect>) | WarningAborted(effects: seq<Effect>)

  /** `send_warning` for a record whose decayed total is `points`. */
  function SendWarning(key: Key, points: int, log: Json, env: Platform): (w: Warning)
    ensures !env.userFetched ==> w == WarningAborted([])
    ensures env.userFetched && points < 300 ==> w == Warned(log, [])
    ensures points >= 300 && log.JList? ==> w == WarningAborted([])
    ensures w.Warned? ==> w.log.JList? == log.JList?
    ensures forall e | e in w.effects :: e == DirectMessage(key, "flagged") || e == BanIssued(key, BanReason)
    ensures |w.effects| <= 2
    ensures |w.effects| == 2 ==> w.effects == [DirectMessage(key, "flagged"), BanIssued(key, BanReason)]
    ensures DirectMessage(key, "flagged") in w.effects <==> env.userFetched && WantsWarning(points, log) && env.dm.Delivered?
    ensures BanIssued(key, BanReason) in w.effects
            <==> env.userFetched && points >= BanThreshold && log.JObject? && env.memberPresent && env.banSucceeds
                 && !(WantsWarning(points, log) && env.dm.SendFailed?)
    ensures w.Warned? && log.JObject? ==>
              && w.log.messageSent == (if WantsWarning(points, log) && env.dm.Delivered? then Some("flagged") else log.messageSent)
              && w.log.banMessage == (if points >= BanThreshold && env.memberPresent then Some(BanNote) else log.banMessage)
    ensures w.WarningAborted? <==>
              || !env.userFetched
              || (points >= 300 && log.JList?)
              || (WantsWarning(points, log) && env.dm.SendFailed?)
              || (points >= BanThreshold && log.JObject? && env.memberPresent && !env.banSucceeds
                  && !(WantsWarning(points, log) && env.dm.SendFailed?))
  {
    if !env.userFetched then WarningAborted([])
    else
      match WarningTier(points)
      case None => Warned(log, [])
      case Some(tier) =>
        match log
        case JList(_) => WarningAborted([])
        case JObject(sent, banMessage) =>
          var attempt := sent != Some(tier.status);
          if attempt && env.dm.SendFailed? then WarningAborted([])
          else
            var delivered := attempt && env.dm.Delivered?;
            var sent' := if delivered then Some(tier.status) else sent;
            var dms := if delivered then [DirectMessage(key, tier.status)] else [];
            if points >= BanThreshold && env.memberPresent then
              if env.banSucceeds then Warned(JObject(sent', Some(BanNote)), dms + [BanIssued(key, BanReason)])
              else WarningAborted(dms)
            else Warned(JObject(sent', banMessage), dms)
  }

  /** The columns an UPDATE statement of the tick writes. */
  datatype Column = PointsColumn | StatusColumn | LogColumn

  datatype Step =
    | Untouched
    | Decayed(record: Record, written: set<Column>, effects: seq<Effect>)
    | StepAborted(effects: seq<Effect>)
  {
    /** The effects of the step; an untouched row has none. */
    function Effects(): seq<Effect> {
      if Untouched? then [] else effects
    }
  }

  /** The loop body for one row of the scan. */
  function DecayStep(key: Key, rec: Record, env: Platform): (s: Step)
    ensures s.Untouched? <==> rec.points == 0
    ensures s.Decayed? ==>
              && s.record.points == DecayedPoints(rec.points)
              && s.record.status == StatusOf(s.record.points)
              && s.record.notes == rec.notes
              && PointsColumn in s.written && LogColumn in s.written
              && (StatusColumn in s.written <==> StatusOf(s.record.points) != rec.status)
    ensures s.Decayed? && rec.log.Some? && rec.log.value.JList? ==> s.record.log == rec.log
    ensures s.Decayed? && !(rec.log.Some? && rec.log.value.JList?) ==> s.record.log.Some? && s.record.log.value.JObject?
    ensures s.StepAborted? ==> rec.points != 0
    ensures forall e | e in s.Effects() :: e == DirectMessage(key, "flagged") || e == BanIssued(key, BanReason)
  {
    var points := DecayedPoints(rec.points);
    if points == rec.points then Untouched
    else
      var log := rec.log.GetOr(JObject(None, None));
      match SendWarning(key, points, log, env)
      case WarningAborted(effects) => StepAborted(effects)
      case Warned(log', effects) =>
        var status := StatusOf(points);
        Decayed(Record(points, status, rec.notes, Some(log')),
                {PointsColumn, LogColumn} + (if status != rec.status then {StatusColumn} else {}),
                effects)
  }

  /** A record as every writing command leaves it (a list log) aborts the
      tick once its decayed total reaches the first tier, whatever the
      platform answers. */
  lemma ListLogAbortsStep(key: Key, rec: Record, env: Platform)
    requires rec.log.Some? && rec.log.value.JList?
    requires rec.points >= 300 + DecayAmount
    ensures DecayStep(key, rec, env) == StepAborted([])
  {
  }

  /** The marker makes the DM at-most-once: when one step delivers it, the
      next step on the resulting record sends none, whatever the platform
      answers. */
  lemma WarnsAtMostOnce(key: Key, rec: Record, env1: Platform, env2: Platform)
    requires DecayStep(key, rec, env1).Decayed?
    ensures var rec1 := DecayStep(key, rec, env1).record;
            !(DmSent(DecayStep(key, rec, env1).Effects(), key) && DmSent(DecayStep(key, rec1, env2).Effects(), key))
  {
  }

  /** The ban decision ignores the DM marker: for a record that is not a
      list, with the user fetched and the DM not failing, a ban is issued
      exactly when the decayed total is 1000 or more, the member is found
      and the ban call succeeds; if that call raises, the step aborts. */
  lemma BanDecision(key: Key, rec: Record, env: Platform)
    requires !(rec.log.Some? && rec.log.value.JList?)
    requires env.userFetched && !env.dm.SendFailed?
    requires rec.points != 0
    ensures var s := DecayStep(key, rec, env);
            && (BanIssued(key, BanReason) in s.effects
                <==> DecayedPoints(rec.points) >= BanThreshold && env.memberPresent && env.banSucceeds)
            && (s.StepAborted? <==> DecayedPoints(rec.points) >= BanThreshold && env.memberPresent && !env.banSucceeds)
  {
  }

  /** Where a scan of the rows in `order` got to. */
  datatype Scan = Scan(updates: Users, effects: seq<Effect>, completed: bool)

  /** The loop over the rows fetched by the SELECT, in `order`; each row is
      read from the snapshot `users`. The first aborting row ends the scan. */
  function Sweep(users: Users, order: seq<Key>, env: Key -> Platform): (r: Scan)
    requires forall i | 0 <= i < |order| :: order[i] in users
    ensures forall k | k in r.updates :: k in order
    decreases |order|
  {
    if order == [] then Scan(map[], [], true)
    else
      var key := order[0];
      match DecayStep(key, users[key], env(key))
      case Untouched => Sweep(users, order[1..], env)
      case StepAborted(effects) => Scan(map[], effects, false)
      case Decayed(rec, _, effects) =>
        var rest := Sweep(users, order[1..], env);
        Scan(rest.updates[key := rec], effects + rest.effects, rest.completed)
  }

  ghost predicate AbortsOn(users: Users, env: Key -> Platform, key: Key)
    requires key in users
  {
    DecayStep(key, users[key], env(key)).StepAborted?
  }

  /** A scan completes exactly when no row aborts; a completed scan holds the
      decayed record of every row that changed and of no other row. */
  lemma {:induction false} SweepCollects(users: Users, order: seq<Key>, env: Key -> Platform)
    requires forall i | 0 <= i < |order| :: order[i] in users
    ensures Sweep(users, order, env).completed <==> forall i | 0 <= i < |order| :: !AbortsOn(users, env, order[i])
    ensures var r := Sweep(users, order, env);
            r.completed ==>
              && (forall k | k in order :: (k in r.updates <==> DecayStep(k, users[k], env(k)).Decayed?))
              && (forall k | k in r.updates :: r.updates[k] == DecayStep(k, users[k], env(k)).record)
    decreases |order|
  {
    if order != [] {
      var key := order[0];
      var rest := order[1..];
      assert forall i | 0 <= i < |rest| :: rest[i] == order[i + 1];
      SweepCollects(users, rest, env);
      assert forall k | k in order :: k == key || k in rest;
      var s := DecayStep(key, users[key], env(key));
      if s.StepAborted? {
        assert AbortsOn(users, env, order[0]);
      } else {
        assert (forall i | 0 <= i < |order| :: !AbortsOn(users, env, order[i]))
           <==> (forall i | 0 <= i < |rest| :: !AbortsOn(users, env, rest[i])) by {
          if forall i | 0 <= i < |rest| :: !AbortsOn(users, env, rest[i]) {
            forall i | 0 <= i < |order| ensures !AbortsOn(users, env, order[i]) {
              if i > 0 { assert order[i] == rest[i - 1]; }
            }
          }
        }
      }
    }
  }

  /** Rows after the first aborting one are never looked at: the scan equals
      the scan of the prefix that ends with that row. */
  lemma {:induction false} SweepStopsAtAbort(users: Users, order: seq<Key>, env: Key -> Platform, i: nat)
    requires forall j | 0 <= j < |order| :: order[j] in users
    requires i < |order| && AbortsOn(users, env, order[i])
    ensures Sweep(users, order, env) == Sweep(users, order[..i + 1], env)
    ensures !Sweep(users, order, env).completed
    decreases i
  {
    var prefix := order[..i + 1];
    assert prefix[0] == order[0];
    if i > 0 && !AbortsOn(users, env, order[0]) {
      assert order[1..][i - 1] == order[i];
      SweepStopsAtAbort(users, order[1..], env, i - 1);
      assert prefix[1..] == order[1..][..i];
    }
  }

  /** Every effect of a scan is an effect of the step of the row it names. */
  lemma {:induction false} SweepEffectsComeFromSteps(users: Users, order: seq<Key>, env: Key -> Platform, e: Effect)
    requires forall i | 0 <= i < |order| :: order[i] in users
    requires e in Sweep(users, order, env).effects
    ensures e.key in users && e in DecayStep(e.key, users[e.key], env(e.key)).Effects()
    decreases |order|
  {
    var key := order[0];
    var s := DecayStep(key, users[key], env(key));
    var rest := order[1..];
    assert forall j | 0 <= j < |rest| :: rest[j] == order[j + 1];
    if s.Untouched? {
      SweepEffectsComeFromSteps(users, rest, env, e);
    } else if s.Decayed? && e !in s.effects {
      SweepEffectsComeFromSteps(users, rest, env, e);
    }
  }

  datatype TickResult = TickResult(users: Users, banned: set<Key>, effects: seq<Effect>, completed: bool)

  /** The keys the effects of a run banned on the platform. */
  function BansOf(effects: seq<Effect>): (r: set<Key>)
    ensures forall k :: k in r <==> exists e :: e in effects && e.BanIssued? && e.key == k
  {
    set e | e in effects && e.BanIssued? :: e.key
  }

  /** One run of `point_decay_loop` over the rows listed in `order` (the
      SELECT's row order). `banned` is the platform's ban list. The store
      changes only when the scan completes and reaches the commit; the DMs
      and bans already done stay done either way. */
  function Tick(users: Users, banned: set<Key>, order: seq<Key>, env: Key -> Platform): (r: TickResult)
    requires Enumerates(order, users.Keys)
    ensures r.users.Keys == users.Keys
    ensures !r.completed ==> r.users == users
    ensures r.banned == banned + BansOf(r.effects)
  {
    var scan := Sweep(users, order, env);
    TickResult(if scan.completed then users + scan.updates else users,
               banned + BansOf(scan.effects), scan.effects, scan.completed)
  }

  /** A completed run leaves every record decayed: ten points less but not
      below zero, the recomputed status where points changed, notes as they
      were; a record already at zero is left exactly as it was. */
  lemma TickDecaysEveryRecord(users: Users, banned: set<Key>, order: seq<Key>, env: Key -> Platform, key: Key)
    requires Enumerates(order, users.Keys)
    requires key in users
    ensures var r := Tick(users, banned, order, env);
            r.completed ==>
              && r.users[key].points == DecayedPoints(users[key].points)
              && r.users[key].points >= 0
              && r.users[key].notes == users[key].notes
              && (users[key].points != 0 ==> r.users[key].status == StatusOf(r.users[key].points))
    ensures users[key].points == 0 ==> Tick(users, banned, order, env).users[key] == users[key]
  {
    SweepCollects(users, order, env);
  }

  /** An aborting row ends the run: the store is unchanged and the effects
      are exactly those of the rows up to and including it. */
  lemma TickAbortsAtFirstFailure(users: Users, banned: set<Key>, order: seq<Key>, env: Key -> Platform, i: nat)
    requires Enumerates(order, users.Keys)
    requires i < |order| && AbortsOn(users, env, order[i])
    ensures var r := Tick(users, banned, order, env);
            && !r.completed
            && r.users == users
            && r.effects == Sweep(users, order[..i + 1], env).effects
  {
    SweepStopsAtAbort(users, order, env, i);
  }

  /** A single record at 310 points or more whose log is a list, as every
      writing command stores it, makes every run abort without committing. */
  lemma ListLogAbortsTick(users: Users, banned: set<Key>, order: seq<Key>, env: Key -> Platform, key: Key)
    requires Enumerates(order, users.Keys)
    requires key in users && users[key].log.Some? && users[key].log.value.JList?
    requires users[key].points >= 300 + DecayAmount
    ensures var r := Tick(users, banned, order, env);
            !r.completed && r.users == users
  {
    ListLogAbortsStep(key, users[key], env(key));
    var i :| 0 <= i < |order| && order[i] == key;
    SweepStopsAtAbort(users, order, env, i);
  }

  /** A DM of a run comes from the step of the record it addresses. */
  lemma TickDmComesFromStep(users: Users, banned: set<Key>, order: seq<Key>, env: Key -> Platform, key: Key)
    requires Enumerates(order, users.Keys)
    requires DmSent(Tick(users, banned, order, env).effects, key)
    ensures key in users && DmSent(DecayStep(key, users[key], env(key)).Effects(), key)
  {
    var e :| e in Tick(users, banned, order, env).effects && e.DirectMessage? && e.key == key;
    SweepEffectsComeFromSteps(users, order, env, e);
  }

  /** In a completed run no row aborted, and the store holds the decayed
      record of every row that changed. */
  lemma TickStoresStep(users: Users, banned: set<Key>, order: seq<Key>, env: Key -> Platform, key: Key)
    requires Enumerates(order, users.Keys)
    requires key in users
    ensures Tick(users, banned, order, env).completed ==>
              && !DecayStep(key, users[key], env(key)).StepAborted?
              && (DecayStep(key, users[key], env(key)).Decayed? ==>
                    Tick(users, banned, order, env).users[key] == DecayStep(key, users[key], env(key)).record)
  {
    SweepCollects(users, order, env);
  }

  /** Two runs in a row, the first one completing, never both DM the same
      user: the first DM leaves the "flagged" marker committed. */
  lemma TickWarnsOnce(users: Users, banned: set<Key>, order1: seq<Key>, env1: Key -> Platform,
                      r1: TickResult, order2: seq<Key>, env2: Key -> Platform, key: Key)
    requires Enumerates(order1, users.Keys) && Enumerates(order2, users.Keys)
    requires r1 == Tick(users, banned, order1, env1)
    ensures r1.completed ==> !(DmSent(r1.effects, key) && DmSent(Tick(r1.users, r1.banned, order2, env2).effects, key))
  {
    var r2 := Tick(r1.users, r1.banned, order2, env2);
    if r1.completed && DmSent(r1.effects, key) && DmSent(r2.effects, key) {
      TickDmComesFromStep(users, banned, order1, env1, key);
      TickDmComesFromStep(r1.users, r1.banned, order2, env2, key);
      TickStoresStep(users, banned, order1, env1, key);
      var s1 := DecayStep(key, users[key], env1(key));
      assert s1.Effects() != [];
      WarnsAtMostOnce(key, users[key], env1(key), env2(key));
    }
  }
}

=== FILE: records.dfy ===
/**
 The record store shared by every command of the bot: one infraction record
 per (guild, user) pair, the per-guild settings row, the caller of a command
 and the platform effects a command can cause.
 */
module Records {
  import opened Wrappers

  type GuildId = int
  type UserId = int
  type RoleId = int

  /** An ISO-8601 time stamp; the model never inspects it. */
  type Timestamp = string

  /** The primary key of the `users` table. */
  type Key = (GuildId, UserId)

  /** One element of a record's log list. Each writer stores its own shape. */
  datatype Entry =
      /** `/infraction`: actor, `points_added`, the moderator's note. */
    | Manual(actorId: UserId, actorName: string, pointsAdded: int, note: string, time: Timestamp)
      /** A filter hit: action `filtered_word_detected`, actor name "Bot". */
    | FilterHit(word: string, pointsAdded: int, time: Timestamp)
      /** `/ban`: action "Banned", the note is the ban reason. */
    | BanEntry(actorId: UserId, actorName: string, reason: string, time: Timestamp)
      /** `/unban`: action "Unbanned". */
    | UnbanEntry(actorId: UserId, actorName: string, time: Timestamp)

  /** The decoded `log_json` column. Every command writes a list; the decay
      tick decodes a NULL column as an empty dictionary and writes it back as
      one, carrying only the two keys the tick itself sets. */
  datatype Json =
    | JList(entries: seq<Entry>)
    | JObject(messageSent: Option<string>, banMessage: Option<string>)

  /** A row of the `users` table; `log` is `None` for a NULL or empty column. */
  datatype Record = Record(points: int, status: string, notes: string, log: Option<Json>)

  type Users = map<Key, Record>

  /** A row of `guild_settings`: the moderator role and the filter table. */
  datatype GuildSettings = GuildSettings(modRole: Option<RoleId>, chatWords: Option<map<string, int>>)

  type Settings = map<GuildId, GuildSettings>

  /** The member who invoked a command, with the guild permissions it holds. */
  datatype Caller = Caller(id: UserId, name: string, isAdmin: bool, canBan: bool, roles: set<RoleId>)

  /** What a command did on the platform, in the order it happened. */
  datatype Effect =
    | DirectMessage(key: Key, status: string)
    | BanIssued(key: Key, reason: string)
    | UnbanIssued(key: Key)
    | LogCommitted(key: Key)

  /** The status every new record starts with. */
  const ActiveStatus := "active"

  /** The entries of a log as the writing commands see it: a NULL column and
      a dictionary contribute no entries. */
  function Entries(log: Option<Json>): seq<Entry> {
    match log
    case Some(JList(entries)) => entries
    case _ => []
  }

  /** True when the stored log decodes to a dictionary, on which `append`
      raises and the writing command gives up. */
  predicate IsDict(log: Option<Json>) {
    log.Some? && log.value.JObject?
  }

  /** A writing command's `json.loads(log) if log else []` followed by
      `append(e)`; `None` when the append raises. */
  function Append(log: Option<Json>, e: Entry): (r: Option<Json>)
    ensures r.None? <==> IsDict(log)
    ensures r.Some? ==> r.value.JList? && |r.value.entries| == |Entries(log)| + 1
    ensures r.Some? ==> r.value.entries[..|Entries(log)|] == Entries(log) && r.value.entries[|Entries(log)|] == e
  {
    if IsDict(log) then None else Some(JList(Entries(log) + [e]))
  }

  /** The row a writing command inserts when the user has no record yet. */
  function NewRecord(points: int, e: Entry): (r: Record)
    ensures r.points == points && r.status == ActiveStatus && r.notes == ""
    ensures Entries(r.log) == [e] && !IsDict(r.log)
  {
    Record(points, ActiveStatus, "", Some(JList([e])))
  }

  /** `order` lists every element of `keys` exactly once: a result set's row
      order or a dictionary's key order. */
  ghost predicate Enumerates<T>(order: seq<T>, keys: set<T>) {
    && (forall i, j | 0 <= i < j < |order| :: order[i] != order[j])
    && (forall k | k in order :: k in keys)
    && (forall k | k in keys :: k in order)
  }
}

=== FILE: tiers.dfy ===
/**
 The fixed severity table of the decay tick and the two ways the tick reads
 it: the status recomputation keeps the LAST tier reached, the warning scan
 stops at the FIRST tier reached.
 */
module Tiers {
  import opened Wrappers
  import opened Records

  datatype Tier = Tier(threshold: int, status: string)

  /** The three-entry table, in the ascending order the source lists it. */
  const Table: seq<Tier> := [Tier(300, "flagged"), Tier(500, "risking ban"), Tier(1000, "banned")]

  ghost predicate Ascending(tiers: seq<Tier>) {
    forall i, j | 0 <= i < j < |tiers| :: tiers[i].threshold < tiers[j].threshold
  }

  /** The status loop: start from `acc` and overwrite it with the status of
      every tier whose threshold `points` reaches. */
  function StatusAfter(tiers: seq<Tier>, points: int, acc: string): string
    decreases |tiers|
  {
    if tiers == [] then acc
    else StatusAfter(tiers[1..], points, if points >= tiers[0].threshold then tiers[0].status else acc)
  }

  /** The warning loop: the first tier whose threshold `points` reaches. */
  function FirstReached(tiers: seq<Tier>, points: int): Option<Tier>
    decreases |tiers|
  {
    if tiers == [] then None
    else if points >= tiers[0].threshold then Some(tiers[0])
    else FirstReached(tiers[1..], points)
  }

  /** On an ascending table the status loop yields the status of the highest
      threshold at or below `points`, and `acc` below the lowest threshold. */
  lemma {:induction false} StatusAfterIsHighest(tiers: seq<Tier>, points: int, acc: string)
    requires Ascending(tiers)
    ensures (tiers == [] || points < tiers[0].threshold) ==> StatusAfter(tiers, points, acc) == acc
    ensures forall i | 0 <= i < |tiers| && tiers[i].threshold <= points && (i + 1 == |tiers| || points < tiers[i + 1].threshold) ::
              StatusAfter(tiers, points, acc) == tiers[i].status
    decreases |tiers|
  {
    if tiers != [] {
      var acc' := if points >= tiers[0].threshold then tiers[0].status else acc;
      var rest := tiers[1..];
      assert Ascending(rest) by {
        forall i, j | 0 <= i < j < |rest| ensures rest[i].threshold < rest[j].threshold {
          assert rest[i] == tiers[i + 1] && rest[j] == tiers[j + 1];
        }
      }
      StatusAfterIsHighest(rest, points, acc');
      assert StatusAfter(tiers, points, acc) == StatusAfter(rest, points, acc');
      if points < tiers[0].threshold {
        assert rest == [] || points < rest[0].threshold;
      }
      forall i | 0 <= i < |tiers| && tiers[i].threshold <= points && (i + 1 == |tiers| || points < tiers[i + 1].threshold)
        ensures StatusAfter(tiers, points, acc) == tiers[i].status
      {
        if i == 0 {
          assert rest == [] || points < rest[0].threshold;
        } else {
          assert rest[i - 1] == tiers[i];
          assert i == |rest| || rest[i] == tiers[i + 1];
        }
      }
    }
  }

  /** On an ascending table the warning loop stops at the lowest tier as soon
      as `points` reaches it, and finds nothing otherwise. */
  lemma {:induction false} FirstReachedIsLowest(tiers: seq<Tier>, points: int)
    requires Ascending(tiers)
    ensures tiers != [] && points >= tiers[0].threshold ==> FirstReached(tiers, points) == Some(tiers[0])
    ensures (tiers == [] || points < tiers[0].threshold) ==> FirstReached(tiers, points) == None
    decreases |tiers|
  {
    if tiers != [] && points < tiers[0].threshold {
      var rest := tiers[1..];
      assert Ascending(rest) by {
        forall i, j | 0 <= i < j < |rest| ensures rest[i].threshold < rest[j].threshold {
          assert rest[i] == tiers[i + 1] && rest[j] == tiers[j + 1];
        }
      }
      FirstReachedIsLowest(rest, points);
      assert rest == [] || points < rest[0].threshold;
    }
  }

  lemma TableIsAscending()
    ensures Ascending(Table)
  {
  }

  /** The status the decay tick recomputes from a point total. */
  function StatusOf(points: int): (s: string)
    ensures points < 300 ==> s == ActiveStatus
    ensures 300 <= points < 500 ==> s == "flagged"
    ensures 500 <= points < 1000 ==> s == "risking ban"
    ensures 1000 <= points ==> s == "banned"
  {
    TableIsAscending();
    StatusAfterIsHighest(Table, points, ActiveStatus);
    StatusAfter(Table, points, ActiveStatus)
  }

  /** The tier whose warning the decay tick considers: the 300-point entry for
      every total of 300 or more, even at 500 or 1000. */
  function WarningTier(points: int): (t: Option<Tier>)
    ensures points >= 300 <==> t == Some(Table[0])
    ensures points < 300 <==> t == None
  {
    TableIsAscending();
    FirstReachedIsLowest(Table, points);
    FirstReached(Table, points)
  }
}

=== FILE: unban.dfy ===
/** The `/unban` command: lift a ban on the platform, then log an
    "Unbanned" entry if the user has a record. */
module Unban {
  import opened Wrappers
  import opened Records
  import Ban

  datatype UnbanReply = Denied | MayNotUnban | NotBanned | UnbanDone | UnbanError

  datatype UnbanResult = UnbanResult(users: Users, banned: set<Key>, effects: seq<Effect>, reply: UnbanReply)

  /** The command in `guild` for `target`. `banned` is the guild's ban list
      as `guild.bans()` returns it and `unbanSucceeds` whether `guild.unban`
      returns. The unban takes effect, and the interaction is answered
      "unbanned", before the log is read. A missing record or a dictionary
      log therefore leaves the unban in place and cannot change the reply:
      the later attempt to answer again raises, and that error is not seen
      by the moderator. */
  function UnbanUser(users: Users, banned: set<Key>, guild: GuildId, caller: Caller, permitted: bool,
                     target: UserId, now: Timestamp, unbanSucceeds: bool): (r: UnbanResult)
    ensures var key := (guild, target);
            var lifts := permitted && caller.canBan && key in banned && unbanSucceeds;
            var logs := lifts && key in users && !IsDict(users[key].log);
            && (r.reply == Denied <==> !permitted)
            && (r.reply == MayNotUnban <==> permitted && !caller.canBan)
            && (r.reply == NotBanned <==> permitted && caller.canBan && key !in banned)
            && (r.reply == UnbanError <==> permitted && caller.canBan && key in banned && !unbanSucceeds)
            && (r.reply == UnbanDone <==> lifts)
            && r.banned == (if lifts then banned - {key} else banned)
            && r.effects == (if lifts then [UnbanIssued(key)] else []) + (if logs then [LogCommitted(key)] else [])
            && (!logs ==> r.users == users)
            && (logs ==>
                  && r.users.Keys == users.Keys
                  && (forall k | k in users && k != key :: r.users[k] == users[k])
                  && r.users[key].points == users[key].points
                  && r.users[key].status == users[key].status
                  && r.users[key].notes == users[key].notes
                  && !IsDict(r.users[key].log)
                  && Entries(r.users[key].log) == Entries(users[key].log) + [UnbanEntry(caller.id, caller.name, now)])
  {
    var key := (guild, target);
    if !permitted then UnbanResult(users, banned, [], Denied)
    else if !caller.canBan then UnbanResult(users, banned, [], MayNotUnban)
    else if key !in banned then UnbanResult(users, banned, [], NotBanned)
    else if !unbanSucceeds then UnbanResult(users, banned, [], UnbanError)
    else
      var banned' := banned - {key};
      if key !in users then UnbanResult(users, banned', [UnbanIssued(key)], UnbanDone)
      else
        var rec := users[key];
        match Append(rec.log, UnbanEntry(caller.id, caller.name, now))
        case None => UnbanResult(users, banned', [UnbanIssued(key)], UnbanDone)
        case Some(log) => UnbanResult(users[key := rec.(log := Some(log))], banned', [UnbanIssued(key), LogCommitted(key)], UnbanDone)
  }

  /** A ban followed by an unban restores the ban list and leaves the record's
      points, status and notes as they were, with the two entries appended
      in order. */
  lemma BanThenUnban(users: Users, banned: set<Key>, guild: GuildId, caller: Caller,
                     target: UserId, reason: Option<string>, now: Timestamp)
    requires caller.canBan
    requires (guild, target) in users && !IsDict(users[(guild, target)].log)
    requires (guild, target) !in banned
    ensures var key := (guild, target);
            var b := Ban.BanUser(users, banned, guild, caller, true, target, reason, now, true);
            var u := UnbanUser(b.users, b.banned, guild, caller, true, target, now, true);
            && u.banned == banned
            && u.users.Keys == users.Keys
            && u.users[key].points == users[key].points
            && u.users[key].status == users[key].status
            && u.users[key].notes == users[key].notes
            && Entries(u.users[key].log) == Entries(users[key].log)
                 + [BanEntry(caller.id, caller.name, reason.GetOr(Ban.DefaultReason), now), UnbanEntry(caller.id, caller.name, now)]
            && b.effects + u.effects == [LogCommitted(key), BanIssued(key, reason.GetOr(Ban.DefaultReason)), UnbanIssued(key), LogCommitted(key)]
  {
  }
}

=== FILE: wrappers.dfy ===
/** The optional-value datatype shared by every module of the model. */
module Wrappers {

  /** A value that may be missing: a SQL NULL, an omitted command argument,
      an absent dictionary key. */
  datatype Option<+T> = None | Some(value: T) {

    /** The wrapped value, or `default` when there is none. */
    function GetOr(default: T): T {
      match this
      case Some(v) => v
      case None => default
    }
  }
}
